=== FILE: README.md ===
# Basic inventory tracker — a Dafny model of its store and edit gate

The inventory tracker is a single web page: a form adds stock items, a table
lists them with a search bar above it, a row's quantity can be edited in
place, a row can be deleted, and the whole list is mirrored into the
browser's `stockItems` storage slot. All of its logic lives in closures of
the page's start-up handler in `index.tsx`. This project pulls that logic out
of the DOM plumbing and models it as pure Dafny functions over immutable
values:

- `Stock` — the `StockItem` record, its stored form (whose `unit` may be
  missing), the load-time migration that fills a missing unit with `"pcs"`,
  and the encoding written back to the slot.
- `Store` — the list plus the slot's contents, with `Add` (`handleAddItem`),
  `Delete` (`handleDeleteItem`), `SetQuantity` (the writing half of
  `saveQuantity`) and `FindIndex` (`findIndex`).
- `Search` — the records `filterAndRender` hands to the table.
- `Session` — the page as a state machine: the store, the `isEditing` flag,
  and which row currently holds the quantity input with its Save and Cancel
  buttons; `toggleEditMode`, `saveQuantity` and the `handleTableClick`
  dispatcher; and the three event sources (form submit, search input, table
  click).
- `Text` — the JavaScript string built-ins used: `trim`, `toLowerCase`,
  `includes`. `Subsequences` and `Wrappers` are small helpers.
- `Scenarios` — concrete runs: add, edit, save and delete one record;
  a case-insensitive search; loading a record without a unit; the edit
  lock-out described under Findings.

Every operation returns a new value. A refused action (the page's `alert`)
is a `Failure` or a `Reply` carrying an `Alert`, with the state unchanged.
The storage slot is the `stored` field of `Store`; `Synced` says that
reloading it gives back the list in memory. The three things the page gets
from its host become parameters: the id from `crypto.randomUUID()` (`newId`),
the time from `new Date().toISOString()` (`now`), and what `parseInt` made of
the typed quantity (`Option<int>`, `None` for NaN).

## Model

| member | source | states |
|---|---|---|
| Stock.Migrate | index.tsx:35-38 | Loading keeps every record's position and fields; a unit that was present and non-empty is kept, and a missing or empty one becomes "pcs" |
| Stock.ReloadRoundTrip | index.tsx:31-43 | Saving a list whose units are set and loading it back gives the same list, field for field |
| Stock.MigrateIdempotent | index.tsx:35-38 | Migrating, saving and migrating again gives the same list as migrating once |
| Text.Trim | index.tsx:128-129 | The trimmed text is a slice of the input whose surroundings are all white space and which neither starts nor ends with white space |
| Text.TrimEmptyIffBlank | index.tsx:128-133 | A trimmed field is empty exactly when the raw input was blank, which is what the `!name` and `!category` checks reject |
| Text.Lower | index.tsx:109 | Lower-casing keeps the length, turns each ASCII capital into its lower-case letter and keeps every other character in place |
| Text.LowerIdempotent | index.tsx:115-117 | Lower-casing a lower-cased string changes nothing |
| Text.ContainsIffOccurs | index.tsx:115-117 | `includes` is true exactly when the needle occurs at some offset of the text |
| Store.FindIndex | index.tsx:157-158 | The result is -1 exactly when no record has the id, and otherwise the first position holding it |
| Store.Add | index.tsx:124-148 | The add is refused exactly when the name or category is blank, the quantity did not parse, or it is below 1, with the list unchanged; otherwise the list grows by one, earlier records are untouched, the new record is last with the trimmed name and category and the given quantity, unit, id and time, the slot is rewritten, and a fresh id keeps ids unique |
| Store.RemoveAt | index.tsx:159 | Splicing out one position shortens the list by one, keeps every other record and keeps them in order |
| Store.RemoveAtIds | index.tsx:159 | With unique ids, the ids left after splicing out a position are all the earlier ids except that record's |
| Store.RemoveAtUnique | index.tsx:159 | With unique ids, splicing out a position keeps exactly the records of other ids, removes exactly its id from the id set, and keeps ids unique |
| Store.Delete | index.tsx:156-163 | An absent id changes nothing, the slot included; a present id shortens the list by one, keeps the rest in order and rewrites the slot; with unique ids exactly the records of other ids remain and ids stay unique |
| Store.SetQuantity | index.tsx:225-236 | A value that did not parse or is negative is refused; otherwise an absent id changes nothing, and a present id sets the quantity of the first record holding it (the one `findIndex` returns), leaves every other position as it was (every record holding it, when ids are unique) and rewrites the slot |
| Store.CommitIsSynced | index.tsx:41-43 | After a write of a list whose units are set, reloading the slot gives the list back |
| Store.AddKeepsWellFormed | index.tsx:138-148 | An accepted add with a fresh id and a non-empty unit keeps ids unique, units set and quantities non-negative, and the slot in step |
| Store.DeleteKeepsWellFormed | index.tsx:156-163 | A delete keeps the list well formed and the slot in step |
| Store.SetQuantityKeepsWellFormed | index.tsx:232-236 | An accepted quantity write keeps the list well formed and the slot in step |
| Search.MatchesIffSpec | index.tsx:115-117 | The match test holds exactly when the lower-cased term occurs in the lower-cased name, category or unit |
| Search.Filter | index.tsx:114-118 | A record is in the filtered list exactly when it is in the list and matches, and the result is no longer than the list |
| Search.FilterIsSubsequence | index.tsx:114-118 | The filtered list keeps the matching records in their original order |
| Search.FilterMultiplicity | index.tsx:114-118 | Each record occurs in the result as often as in the list when it matches, and not at all otherwise |
| Search.FilterEmptyTerm | index.tsx:110-113 | Filtering with the empty term keeps the whole list |
| Search.SearchShowsExactlyMatches | index.tsx:107-120 | An empty search shows the whole list; otherwise the table gets, in list order, exactly the records whose name, category or unit contains the search text, ignoring case |
| Search.EmptySearchIsFilter | index.tsx:109-113 | The short cut taken for an empty search agrees with filtering by the empty term |
| Session.ToggleEditMode | index.tsx:166-219 | The store is untouched and `isEditing` becomes the requested value; entering on a present record puts the input in its row and entering on an absent one leaves the input where it was; leaving takes it out of the clicked row and leaves any other row's input in place |
| Session.SaveQuantity | index.tsx:221-238 | A Save on a row without the edit input does nothing; on the row holding it, a non-parsing or negative value is refused with everything unchanged (the edit stays open), and any other value is written as `SetQuantity` writes it and the edit is closed, whether or not the id is still present |
| Session.HandleTableClick | index.tsx:240-270 | A click without a row id does nothing; while editing, Edit is refused with "Please save or cancel the current edit first." (`FinishEditFirst`) and Delete with "Please save or cancel the current edit before deleting an item." (`FinishEditToDelete`) and nothing changes, and from idle they are accepted; Edit from idle opens an edit without touching the list and puts the edit input in the clicked row when that row exists; a Delete from idle removes the record as `Delete` does; Cancel always closes the edit and removes the input from the clicked row; Save goes to `SaveQuantity` |
| Session.HandleAsWritten | index.tsx:147-149 | A submit is refused exactly when `Add` refuses it, with nothing changed, and otherwise stores `Add`'s result; a search leaves the store alone; after an accepted add or a search no row holds the edit input, yet `isEditing` is left as it was; clicks go to the dispatcher |
| Session.Handle | index.tsx:147-149 | As `HandleAsWritten` for the store and for clicks, except that an accepted add or a search also clears `isEditing` along with the edit input |
| Session.StartIsCoherent | index.tsx:278-279 | The page starts idle, with the flag matching the view and the slot in step with the loaded list |
| Session.HandleKeepsCoherent | index.tsx:166-167 | With the corrected re-render, every event the page can raise keeps `isEditing` true exactly when some row holds the edit input |
| Session.CoherentEditCanBeClosed | index.tsx:267-268 | While an edit is open its Cancel button exists and clicking it returns the page to idle |
| Session.RunNeverLocksOut | index.tsx:253-264 | With the corrected re-render, no sequence of events leaves the page editing with no Save or Cancel button |
| Session.SearchWhileEditingLocksOut | index.tsx:107-120 | As written, typing in the search bar while a row holds the edit input removes the input but leaves `isEditing` set |
| Session.AddWhileEditingLocksOut | index.tsx:147-149 | As written, an accepted add while a row holds the edit input leaves `isEditing` set with no row holding the input |
| Session.LockOutIsPermanent | index.tsx:253-264 | As written, once locked out the page stays locked out whatever the user does |
| Session.LockedOutRefusesRows | index.tsx:253-264 | In a lock-out every Edit on a row is refused with `FinishEditFirst` and every Delete with `FinishEditToDelete`, and neither changes anything |
| Session.HandleKeepsStoreHealthy | index.tsx:147-148 | Every event keeps ids unique, units set, quantities non-negative and the slot in step, given a fresh id and a non-empty unit for new records |
| Scenarios.AddEditSaveDelete | index.tsx:124-163 | Adding flour (5 kg), saving quantity 3 and deleting it runs from an empty list back to an empty list and slot; the page is idle after the save and after the delete |
| Scenarios.SearchFlourIgnoresCase | index.tsx:107-120 | Searching "flour" among flour and sugar shows only flour |
| Scenarios.MissingUnitLoadsAsPieces | index.tsx:35-38 | A stored record without a unit loads with the unit "pcs" |
| Scenarios.SearchDuringEditExample | index.tsx:107-120 | Edit then search locks the page out as written, while the corrected handling leaves it idle and accepts the next Edit |

## Findings

| source | as written | input that shows it | evidently intended | confidence | as-written member | corrected member |
|---|---|---|---|---|---|---|
| index.tsx:107-120 | `filterAndRender` rebuilds every row with Edit and Delete buttons, removing the open edit's input and its Save and Cancel buttons, but leaves `isEditing` set; it runs on every search keystroke and after every accepted add | click Edit on a row, then type a character in the search bar (or add an item): every later Edit is refused with "Please save or cancel the current edit first." and every later Delete with "Please save or cancel the current edit before deleting an item.", and no Save or Cancel button exists until the page is reloaded | the flag follows the view: rebuilding the table discards the open edit, so `isEditing` becomes false | not executed; high | Session.LockOutIsPermanent | Session.RunNeverLocksOut |

`Session.HandleAsWritten` models the page as written, and
`Session.SearchWhileEditingLocksOut`, `Session.AddWhileEditingLocksOut`, `Session.LockOutIsPermanent` and
`Scenarios.SearchDuringEditExample` exhibit the lock-out. `Session.Handle`
uses the corrected re-render and is the handler the scenarios and the store
invariants are stated for.

## Left out

- DOM construction and rendering (`renderTable`, the button markup, focus and selection, the empty-list message): presentation only. The view is reduced to which row, if any, holds the edit input.
- The display order by `dateAdded`, newest first (index.tsx:58), and the date formatting: they use the host's clock and locale and only reorder what is shown. `dateAdded` is an opaque string.
- `localStorage`, `JSON.parse` and `JSON.stringify`: the slot is the `stored` field, and stored records are assumed to have the record's shape apart from a possibly missing or empty unit. A slot holding text that is not JSON makes `JSON.parse` throw during start-up; the code has no fallback to an empty list for it, so it is not modelled.
- `crypto.randomUUID()`: the new id is a parameter; its freshness is a hypothesis of the uniqueness results rather than a precondition of `Add`.
- `parseInt`: the parsed quantity is an `Option<int>`; digit parsing, partial parses such as `"5abc"` and the precision of JavaScript numbers above 2^53 are not modelled.
- `alert`: modelled as an `Alert` value, not as text.
- Text.Lower: maps only the ASCII capitals; the full Unicode case mapping of `toLowerCase` is not modelled.
- Strings are sequences of Unicode scalar values, whereas JavaScript strings are sequences of UTF-16 code units: lone surrogates cannot be represented, and a character outside the Basic Multilingual Plane is one element here but two code units to `trim`, `includes` and `toLowerCase`. Which records match a search and what trimming keeps are the same for well-formed text, but lengths and offsets are counted in characters, not code units.
- Session.Enabled: treats every row of a present record as clickable, including rows the search bar currently hides; this only widens the set of events the coherence and lock-out results quantify over.
- The unit chosen in the add form is not checked by the code; `Store.AddKeepsWellFormed` and `Session.HandleKeepsStoreHealthy` take a non-empty unit as a hypothesis, since a stored empty unit would reload as "pcs".
- Return values that the code does not have (the created record from an add, a removed/not-found flag from a delete or a quantity write) are not modelled; the updated state says the same.
- The form reset and the quantity field set back to "1" after an add (index.tsx:151-153): they only touch the input widgets.

=== FILE: scenarios.dfy ===
/** Concrete runs of the page: adding, editing and deleting one record, a
    case-insensitive search, loading a record without a unit, and opening an
    edit followed by a search. */
module Scenarios {
  import opened Wrappers
  import opened Text
  import opened Stock
  import opened Store
  import opened Search
  import opened Session

  const Flour := StockItem("id-1", "Flour", "Baking", 5, "kg", "2024-01-01T00:00:00.000Z")
  const Sugar := StockItem("id-2", "Sugar", "Baking", 2, "kg", "2024-01-02T00:00:00.000Z")

  /** Add flour, edit its quantity to 3, then delete it: the list goes from
      empty to one record and back to empty, and the edit ends idle. */
  lemma AddEditSaveDelete()
    ensures var p0 := Start([]);
            var p1 := Handle(p0, SubmitForm("Flour", "Baking", Some(5), "kg", Flour.id, Flour.dateAdded)).after;
            var p2 := Handle(p1, TableClick(EditClick(Flour.id))).after;
            var p3 := Handle(p2, TableClick(SaveClick(Flour.id, Some(3)))).after;
            var p4 := Handle(p3, TableClick(DeleteClick(Flour.id))).after;
            && p1.store.items == [Flour]
            && p2.gate.isEditing
            && p3.store.items == [Flour.(quantity := 3)] && !p3.gate.isEditing
            && p4.store.items == [] && p4.store.stored == [] && p4.gate == Gate(false, None)
  {
    AddFlour();
    EditFlour();
    SaveFlour();
    DeleteFlour();
  }

  lemma TrimFlourAndBaking()
    ensures Trim("Flour") == "Flour" && Trim("Baking") == "Baking"
  {
    assert !IsWhiteSpace('F') && !IsWhiteSpace('r');
    assert SkipWhiteSpace("Flour", 0) == 0;
    assert SkipWhiteSpaceBack("Flour", 0, 5) == 5;
    assert !IsWhiteSpace('B') && !IsWhiteSpace('g');
    assert SkipWhiteSpace("Baking", 0) == 0;
    assert SkipWhiteSpaceBack("Baking", 0, 6) == 6;
  }

  lemma AddFlour()
    ensures Handle(Start([]), SubmitForm("Flour", "Baking", Some(5), "kg", Flour.id, Flour.dateAdded)).after
            == Page(Commit([Flour]), Gate(false, None))
  {
    TrimFlourAndBaking();
    var st := Load([]);
    assert st.items == [];
    assert !AllWhiteSpace("Flour") by {
      assert !IsWhiteSpace("Flour"[0]);
    }
    assert !AllWhiteSpace("Baking") by {
      assert !IsWhiteSpace("Baking"[0]);
    }
    var r := Add(st, "Flour", "Baking", Some(5), "kg", Flour.id, Flour.dateAdded);
    assert r.Success?;
    assert r.value.items == [Flour];
  }

  lemma EditFlour()
    ensures Handle(Page(Commit([Flour]), Gate(false, None)), TableClick(EditClick(Flour.id))).after
            == Page(Commit([Flour]), Gate(true, Some(Flour.id)))
  {
    assert [Flour][0].id in Ids([Flour]);
  }

  lemma SaveFlour()
    ensures Handle(Page(Commit([Flour]), Gate(true, Some(Flour.id))), TableClick(SaveClick(Flour.id, Some(3)))).after
            == Page(Commit([Flour.(quantity := 3)]), Gate(false, None))
  {
    assert FindIndex([Flour], Flour.id) == 0;
    assert [Flour][0 := Flour.(quantity := 3)] == [Flour.(quantity := 3)];
  }

  lemma DeleteFlour()
    ensures Handle(Page(Commit([Flour.(quantity := 3)]), Gate(false, None)), TableClick(DeleteClick(Flour.id))).after
            == Page(Commit([]), Gate(false, None))
  {
    assert FindIndex([Flour.(quantity := 3)], Flour.id) == 0;
    assert RemoveAt([Flour.(quantity := 3)], 0) == [];
  }

  /** Searching "flour" among flour and sugar shows only the flour record. */
  lemma SearchFlourIgnoresCase()
    ensures Visible([Flour, Sugar], "flour") == [Flour]
  {
    assert Lower("Flour") == "flour";
    assert Lower("flour") == "flour";
    assert Lower("Sugar") == "sugar";
    assert Lower("Baking") == "baking";
    assert Lower("kg") == "kg";
    assert Contains("flour", "flour");
    assert !Contains("sugar", "flour") by {
      assert "sugar"[..5][0] != "flour"[0];
      assert !Contains("ugar", "flour");
    }
    assert !Contains("baking", "flour") by {
      assert !Contains("king", "flour");
      assert !Contains("aking", "flour");
    }
    assert !Contains("kg", "flour");
    assert Matches(Flour, "flour");
    assert !Matches(Sugar, "flour");
    assert Filter([Flour, Sugar], "flour") == [Flour] + Filter([Sugar], "flour");
  }

  /** A stored record without a unit is loaded with the unit "pcs". */
  lemma MissingUnitLoadsAsPieces()
    ensures var rec := StoredItem("id-9", "Nails", "Hardware", 100, None, "2023-05-01T00:00:00.000Z");
            Start([rec]).store.items == [StockItem("id-9", "Nails", "Hardware", 100, "pcs", rec.dateAdded)]
  {
  }

  /** As written: open an edit, type in the search bar, and the page is
      locked out; the next Edit on the same row is refused. With the
      corrected re-render the same steps leave the page idle and the Edit
      is accepted. */
  lemma SearchDuringEditExample()
    ensures var p0 := Start(Persist([Flour]));
            var p1 := HandleAsWritten(p0, TableClick(EditClick(Flour.id))).after;
            var p2 := HandleAsWritten(p1, SearchInput).after;
            && LockedOut(p2)
            && HandleAsWritten(p2, TableClick(EditClick(Flour.id))).alert == Some(FinishEditFirst)
    ensures var p0 := Start(Persist([Flour]));
            var p1 := Handle(p0, TableClick(EditClick(Flour.id))).after;
            var p2 := Handle(p1, SearchInput).after;
            && !LockedOut(p2)
            && Handle(p2, TableClick(EditClick(Flour.id))).alert.None?
            && Handle(p2, TableClick(EditClick(Flour.id))).after.gate == Gate(true, Some(Flour.id))
  {
    ReloadRoundTrip([Flour]);
    assert [Flour][0].id in Ids([Flour]);
  }
}

=== FILE: search.dfy ===
/** The search bar: which records `filterAndRender` passes on to the table. */
module Search {
  import opened Text
  import opened Stock
  import opened Subsequences

  /** A record matches a lower-cased term when its lower-cased name,
      category or unit contains it. */
  predicate Matches(item: StockItem, term: string)
  {
    || Contains(Lower(item.name), term)
    || Contains(Lower(item.category), term)
    || Contains(Lower(item.unit), term)
  }

  /** The same test, stated with occurrences rather than the scan. */
  ghost predicate MatchesSpec(item: StockItem, term: string)
  {
    Occurs(Lower(item.name), term) || Occurs(Lower(item.category), term) || Occurs(Lower(item.unit), term)
  }

  lemma MatchesIffSpec(item: StockItem, term: string)
    ensures Matches(item, term) <==> MatchesSpec(item, term)
  {
    ContainsIffOccurs(Lower(item.name), term);
    ContainsIffOccurs(Lower(item.category), term);
    ContainsIffOccurs(Lower(item.unit), term);
  }

  /** `items.filter(item => Matches(item, term))`. */
  function Filter(items: seq<StockItem>, term: string): (r: seq<StockItem>)
    ensures |r| <= |items|
    ensures forall x :: x in r <==> x in items && Matches(x, term)
  {
    if |items| == 0 then []
    else
      var rest := Filter(items[1..], term);
      assert forall x :: x in items <==> x == items[0] || x in items[1..];
      if Matches(items[0], term) then [items[0]] + rest else rest
  }

  /** The filter keeps the matching records in their original order. */
  lemma {:induction false} FilterIsSubsequence(items: seq<StockItem>, term: string)
    ensures IsSubsequence(Filter(items, term), items)
  {
    if |items| == 0 {
      assert Embeds([], Filter(items, term), items);
    } else {
      FilterIsSubsequence(items[1..], term);
      if Matches(items[0], term) {
        ConsIsSubsequence(items[0], Filter(items[1..], term), items);
      } else {
        SkipIsSubsequence(Filter(items, term), items);
      }
    }
  }

  /** Each record appears in the result exactly as often as in the list when
      it matches, and not at all otherwise. */
  lemma {:induction false} FilterMultiplicity(items: seq<StockItem>, term: string, x: StockItem)
    ensures multiset(Filter(items, term))[x] == if Matches(x, term) then multiset(items)[x] else 0
  {
    if |items| > 0 {
      FilterMultiplicity(items[1..], term, x);
      assert items == [items[0]] + items[1..];
    }
  }

  /** Filtering with the empty term keeps everything: every string contains "". */
  lemma {:induction false} FilterEmptyTerm(items: seq<StockItem>)
    ensures Filter(items, []) == items
  {
    if |items| > 0 {
      ContainsEmpty(Lower(items[0].name));
      FilterEmptyTerm(items[1..]);
    }
  }

  /** `filterAndRender`: the search text is lower-cased; an empty term shows
      the whole list, otherwise the matching records. */
  function Visible(items: seq<StockItem>, searchText: string): seq<StockItem>
  {
    var term := Lower(searchText);
    if term == [] then items else Filter(items, term)
  }

  /** The records shown are, in list order, exactly the ones whose name,
      category or unit contains the search text, ignoring ASCII case; an
      empty search shows the whole list. */
  lemma SearchShowsExactlyMatches(items: seq<StockItem>, searchText: string)
    ensures searchText == [] ==> Visible(items, searchText) == items
    ensures IsSubsequence(Visible(items, searchText), items)
    ensures forall x :: x in Visible(items, searchText) <==>
              x in items && MatchesSpec(x, Lower(searchText))
  {
    var term := Lower(searchText);
    FilterIsSubsequence(items, term);
    FilterEmptyTerm(items);
    forall x
      ensures x in Visible(items, searchText) <==> x in items && MatchesSpec(x, term)
    {
      MatchesIffSpec(x, term);
    }
  }

  /** The short cut for an empty term agrees with filtering by it. */
  lemma EmptySearchIsFilter(items: seq<StockItem>, searchText: string)
    ensures Visible(items, searchText) == Filter(items, Lower(searchText))
  {
  }
}

=== FILE: session.dfy ===
/** The page as a state machine: the store, the `isEditing` gate, and the
    handlers for the form, the search bar and the table's buttons. */
module Session {
  import opened Wrappers
  import opened Stock
  import opened Store

  /** `isEditing`, and the row (by id) whose quantity cell currently holds
      the edit input with Save and Cancel beside it. Every other rendered row
      shows Edit and Delete. */
  datatype Gate = Gate(isEditing: bool, widget: Option<Id>)

  datatype Page = Page(store: Store, gate: Gate)

  /** A click on the table. `NoAction` covers a click outside any button, a
      button outside a row, and a button of no known kind. */
  datatype Click =
    | DeleteClick(id: Id)
    | EditClick(id: Id)
    | SaveClick(id: Id, entered: Option<int>)
    | CancelClick(id: Id)
    | NoAction

  /** The three event sources the page listens to. `entered` and `quantity`
      are what `parseInt` made of the typed text; `newId` and `now` are the
      fresh UUID and the clock reading the add handler would obtain. */
  datatype Event =
    | SubmitForm(name: string, category: string, quantity: Option<int>,
                 unit: string, newId: Id, now: string)
    | SearchInput
    | TableClick(click: Click)

  /** The page after an event, and the alert shown, if any. */
  datatype Reply = Reply(after: Page, alert: Option<Alert>)

  /** Page start-up: load the slot, nothing being edited. */
  function Start(stored: seq<StoredItem>): Page
  {
    Page(Load(stored), Gate(false, None))
  }

  /** `toggleEditMode`: sets `isEditing`; entering puts the edit input in the
      row when the record is found, leaving restores the row's buttons. */
  function ToggleEditMode(p: Page, id: Id, entering: bool): (q: Page)
    ensures q.store == p.store
    ensures q.gate.isEditing == entering
    ensures entering && id in Ids(p.store.items) ==> q.gate.widget == Some(id)
    ensures !entering ==> q.gate.widget != Some(id)
    ensures !entering && p.gate.widget == Some(id) ==> q.gate.widget.None?
    ensures entering && id !in Ids(p.store.items) ==> q.gate.widget == p.gate.widget
    ensures !entering && p.gate.widget != Some(id) ==> q.gate.widget == p.gate.widget
    ensures q.gate.widget == p.gate.widget || q.gate.widget == Some(id) || q.gate.widget.None?
  {
    if entering then
      Page(p.store, Gate(true, if id in Ids(p.store.items) then Some(id) else p.gate.widget))
    else
      Page(p.store, Gate(false, if p.gate.widget == Some(id) then None else p.gate.widget))
  }

  /** The id the clicked row carries, or "" when there is none. */
  function ClickId(c: Click): Id
  {
    match c
    case DeleteClick(id) => id
    case EditClick(id) => id
    case SaveClick(id, _) => id
    case CancelClick(id) => id
    case NoAction => ""
  }

  /** The table is rebuilt (`filterAndRender`), as written: every row gets
      its Edit and Delete buttons back, while `isEditing` is left as it was. */
  function RerenderAsWritten(g: Gate): Gate
  {
    Gate(g.isEditing, None)
  }

  /** The table is rebuilt, corrected: an edit still open is discarded with
      the input that held it. */
  function Rerender(g: Gate): Gate
  {
    Gate(false, None)
  }

  /** `saveQuantity`: nothing happens unless the row holds the edit input;
      a rejected value keeps the edit open; an accepted one is written and
      the edit is closed, whether or not the id is still present. */
  function SaveQuantity(p: Page, id: Id, entered: Option<int>): (r: Reply)
    ensures p.gate.widget != Some(id) ==> r == Reply(p, None)
    ensures p.gate.widget == Some(id) ==>
              && (entered.None? || entered.value < 0 <==> r.alert.Some?)
              && (r.alert.Some? ==> r == Reply(p, Some(InvalidQuantity)))
              && (r.alert.None? ==>
                    && !r.after.gate.isEditing
                    && r.after.gate.widget.None?
                    && Success(r.after.store) == SetQuantity(p.store, id, entered))
  {
    if p.gate.widget != Some(id) then Reply(p, None)
    else
      match SetQuantity(p.store, id, entered)
      case Failure(e) => Reply(p, Some(e))
      case Success(st) => Reply(ToggleEditMode(Page(st, p.gate), id, false), None)
  }

  /** `handleTableClick`: delete and edit are refused while an edit is open;
      save and cancel act on the row that was clicked. */
  function HandleTableClick(p: Page, c: Click): (r: Reply)
    ensures r.alert.Some? ==> r.after == p
    ensures ClickId(c) == "" ==> r == Reply(p, None)
    ensures (c.DeleteClick? || c.EditClick?) && ClickId(c) != "" ==>
              (r.alert.Some? <==> p.gate.isEditing)
    ensures c.DeleteClick? && c.id != "" && p.gate.isEditing ==> r.alert == Some(FinishEditToDelete)
    ensures c.EditClick? && c.id != "" && p.gate.isEditing ==> r.alert == Some(FinishEditFirst)
    ensures c.DeleteClick? && c.id != "" && !p.gate.isEditing ==>
              r.after == Page(Delete(p.store, c.id), Gate(false, None))
    ensures c.EditClick? && c.id != "" && !p.gate.isEditing ==>
              r.after.gate.isEditing && r.after.store == p.store
    ensures c.EditClick? && c.id in Ids(p.store.items) && c.id != "" && !p.gate.isEditing ==>
              r.after.gate.widget == Some(c.id)
    ensures c.CancelClick? && c.id != "" ==>
              r.alert.None? && !r.after.gate.isEditing && r.after.store == p.store
    ensures c.CancelClick? && c.id != "" && p.gate.widget == Some(c.id) ==> r.after.gate.widget.None?
    ensures c.SaveClick? && c.id != "" ==> r == SaveQuantity(p, c.id, c.entered)
  {
    if ClickId(c) == "" then Reply(p, None)
    else
      match c
      case DeleteClick(id) =>
        if p.gate.isEditing then Reply(p, Some(FinishEditToDelete))
        else Reply(Page(Delete(p.store, id), RerenderAsWritten(p.gate)), None)
      case EditClick(id) =>
        if p.gate.isEditing then Reply(p, Some(FinishEditFirst))
        else Reply(ToggleEditMode(p, id, true), None)
      case SaveClick(id, entered) => SaveQuantity(p, id, entered)
      case CancelClick(id) => Reply(ToggleEditMode(p, id, false), None)
      case NoAction => Reply(p, None)
  }

  /** Every event as the page handles it today. */
  function HandleAsWritten(p: Page, ev: Event): (r: Reply)
    ensures r.alert.Some? ==> r.after == p
    ensures ev.SubmitForm? ==>
              var a := Add(p.store, ev.name, ev.category, ev.quantity, ev.unit, ev.newId, ev.now);
              && (r.alert.Some? <==> a.Failure?)
              && (a.Failure? ==> r.alert == Some(a.error))
              && (a.Success? ==> r.after.store == a.value)
    ensures ev.SearchInput? ==> r.alert.None? && r.after.store == p.store
    ensures ev.SubmitForm? || ev.SearchInput? ==> r.after.gate.isEditing == p.gate.isEditing
    ensures (ev.SubmitForm? || ev.SearchInput?) && r.alert.None? ==> r.after.gate.widget.None?
    ensures ev.TableClick? ==> r == HandleTableClick(p, ev.click)
  {
    match ev
    case SubmitForm(name, category, quantity, unit, newId, now) =>
      (match Add(p.store, name, category, quantity, unit, newId, now)
       case Failure(e) => Reply(p, Some(e))
       case Success(st) => Reply(Page(st, RerenderAsWritten(p.gate)), None))
    case SearchInput => Reply(Page(p.store, RerenderAsWritten(p.gate)), None)
    case TableClick(c) => HandleTableClick(p, c)
  }

  /** Every event, with the corrected re-render: adding an item or typing in
      the search bar closes an open edit along with its input. */
  function Handle(p: Page, ev: Event): (r: Reply)
    ensures r.alert.Some? ==> r.after == p
    ensures ev.SubmitForm? ==>
              var a := Add(p.store, ev.name, ev.category, ev.quantity, ev.unit, ev.newId, ev.now);
              && (r.alert.Some? <==> a.Failure?)
              && (a.Failure? ==> r.alert == Some(a.error))
              && (a.Success? ==> r.after.store == a.value)
    ensures ev.SearchInput? ==> r.alert.None? && r.after.store == p.store
    ensures (ev.SubmitForm? || ev.SearchInput?) && r.alert.None? ==>
              !r.after.gate.isEditing && r.after.gate.widget.None?
    ensures ev.TableClick? ==> r == HandleTableClick(p, ev.click)
  {
    match ev
    case SubmitForm(name, category, quantity, unit, newId, now) =>
      (match Add(p.store, name, category, quantity, unit, newId, now)
       case Failure(e) => Reply(p, Some(e))
       case Success(st) => Reply(Page(st, Rerender(p.gate)), None))
    case SearchInput => Reply(Page(p.store, Rerender(p.gate)), None)
    case TableClick(c) => HandleTableClick(p, c)
  }

  /** The events the page can actually raise: Edit and Delete exist on the
      rows of present records that do not hold the edit input; Save and
      Cancel exist only on the row that does. */
  predicate Enabled(p: Page, ev: Event)
  {
    match ev
    case TableClick(DeleteClick(id)) => id in Ids(p.store.items) && p.gate.widget != Some(id)
    case TableClick(EditClick(id)) => id in Ids(p.store.items) && p.gate.widget != Some(id)
    case TableClick(SaveClick(id, _)) => p.gate.widget == Some(id)
    case TableClick(CancelClick(id)) => p.gate.widget == Some(id)
    case _ => true
  }

  /** The flag agrees with the view: `isEditing` holds exactly when some row
      shows the edit input, and that row has an id. */
  ghost predicate Coherent(p: Page)
  {
    && (p.gate.isEditing <==> p.gate.widget.Some?)
    && (p.gate.widget.Some? ==> p.gate.widget.value != "")
  }

  /** Editing with no row holding the edit input: no Save or Cancel button
      exists, yet every Edit and Delete is refused. */
  ghost predicate LockedOut(p: Page)
  {
    p.gate.isEditing && p.gate.widget.None?
  }

  lemma StartIsCoherent(stored: seq<StoredItem>)
    ensures Coherent(Start(stored)) && !LockedOut(Start(stored))
    ensures Synced(Start(stored).store) && AllUnitsSet(Start(stored).store.items)
  {
  }

  /** Corrected handling keeps the flag and the view in agreement. */
  lemma HandleKeepsCoherent(p: Page, ev: Event)
    requires Coherent(p) && Enabled(p, ev)
    ensures Coherent(Handle(p, ev).after)
  {
  }

  /** In a coherent page an open edit can always be closed: its Cancel
      button exists and clicking it returns to the idle state. */
  lemma CoherentEditCanBeClosed(p: Page)
    requires Coherent(p) && p.gate.isEditing
    ensures var ev := TableClick(CancelClick(p.gate.widget.value));
            Enabled(p, ev) && !Handle(p, ev).after.gate.isEditing && Handle(p, ev).alert.None?
  {
  }

  /** Events handled one after another. */
  function Run(p: Page, evs: seq<Event>): Page
    decreases |evs|
  {
    if |evs| == 0 then p else Run(Handle(p, evs[0]).after, evs[1..])
  }

  function RunAsWritten(p: Page, evs: seq<Event>): Page
    decreases |evs|
  {
    if |evs| == 0 then p else RunAsWritten(HandleAsWritten(p, evs[0]).after, evs[1..])
  }

  /** Each event is one the page could raise at the moment it happens. */
  ghost predicate EnabledRun(p: Page, evs: seq<Event>, asWritten: bool)
    decreases |evs|
  {
    |evs| == 0 ||
    (Enabled(p, evs[0]) &&
     EnabledRun(if asWritten then HandleAsWritten(p, evs[0]).after else Handle(p, evs[0]).after,
                evs[1..], asWritten))
  }

  /** Under corrected handling no sequence of events reaches a lock-out. */
  lemma {:induction false} RunNeverLocksOut(p: Page, evs: seq<Event>)
    requires Coherent(p) && EnabledRun(p, evs, false)
    ensures Coherent(Run(p, evs)) && !LockedOut(Run(p, evs))
    decreases |evs|
  {
    if |evs| > 0 {
      HandleKeepsCoherent(p, evs[0]);
      RunNeverLocksOut(Handle(p, evs[0]).after, evs[1..]);
    }
  }

  /** As written, typing in the search bar while a row holds the edit input
      removes the input but leaves `isEditing` set. */
  lemma SearchWhileEditingLocksOut(p: Page)
    requires Coherent(p) && p.gate.isEditing
    ensures LockedOut(HandleAsWritten(p, SearchInput).after)
  {
  }

  /** As written, an accepted add while a row holds the edit input rebuilds
      the table the same way and leaves the page locked out. */
  lemma AddWhileEditingLocksOut(p: Page, name: string, category: string, quantity: Option<int>,
                                unit: string, newId: Id, now: string)
    requires Coherent(p) && p.gate.isEditing
    requires Add(p.store, name, category, quantity, unit, newId, now).Success?
    ensures LockedOut(HandleAsWritten(p, SubmitForm(name, category, quantity, unit, newId, now)).after)
  {
  }

  /** As written, a lock-out never ends: whatever the user does, the page
      stays locked out and every Edit or Delete is refused. */
  lemma {:induction false} LockOutIsPermanent(p: Page, evs: seq<Event>)
    requires LockedOut(p) && EnabledRun(p, evs, true)
    ensures LockedOut(RunAsWritten(p, evs))
    decreases |evs|
  {
    if |evs| > 0 {
      var q := HandleAsWritten(p, evs[0]).after;
      assert LockedOut(q);
      LockOutIsPermanent(q, evs[1..]);
    }
  }

  /** In a lock-out every Edit or Delete on a row is refused with its alert. */
  lemma LockedOutRefusesRows(p: Page, c: Click)
    requires LockedOut(p) && (c.EditClick? || c.DeleteClick?) && c.id != ""
    ensures c.DeleteClick? ==> HandleAsWritten(p, TableClick(c)).alert == Some(FinishEditToDelete)
    ensures c.EditClick? ==> HandleAsWritten(p, TableClick(c)).alert == Some(FinishEditFirst)
    ensures HandleAsWritten(p, TableClick(c)).after == p
  {
  }

  /** Every committed change keeps the list well formed and the storage slot
      in step with it, given a fresh id and a non-empty unit for new records. */
  lemma HandleKeepsStoreHealthy(p: Page, ev: Event)
    requires WellFormed(p.store.items) && Synced(p.store)
    requires ev.SubmitForm? ==> ev.newId !in Ids(p.store.items) && ev.unit != ""
    ensures WellFormed(Handle(p, ev).after.store.items) && Synced(Handle(p, ev).after.store)
  {
    match ev
    case SubmitForm(name, category, quantity, unit, newId, now) =>
      var a := Add(p.store, name, category, quantity, unit, newId, now);
      assert Handle(p, ev).after.store == if a.Success? then a.value else p.store;
      AddKeepsWellFormed(p.store, name, category, quantity, unit, newId, now);
    case SearchInput =>
    case TableClick(c) =>
      assert Handle(p, ev) == HandleTableClick(p, c);
      match c
      case DeleteClick(id) => DeleteKeepsWellFormed(p.store, id);
      case SaveClick(id, entered) =>
        assert id != "" ==> Handle(p, ev) == SaveQuantity(p, id, entered);
        SetQuantityKeepsWellFormed(p.store, id, entered);
      case _ =>
  }
}

=== FILE: stock.dfy ===
/** The inventory record, its stored form, and the load-time migration. */
module Stock {
  import opened Wrappers

  type Id = string

  /** One inventory record as the page holds it in memory. */
  datatype StockItem = StockItem(
    id: Id,
    name: string,
    category: string,
    quantity: int,
    unit: string,
    dateAdded: string)

  /** One record as read back from the `stockItems` storage slot. Records
      written before units existed carry no `unit` field. */
  datatype StoredItem = StoredItem(
    id: Id,
    name: string,
    category: string,
    quantity: int,
    unit: Option<string>,
    dateAdded: string)

  /** The unit given to a record that has none. */
  const DefaultUnit: string := "pcs"

  /** The refusals the page reports with `alert`. */
  datatype Alert =
    | InvalidItem          // the add form was not filled out correctly
    | InvalidQuantity      // the edited quantity is not a non-negative integer
    | FinishEditToDelete   // a delete was clicked while a quantity edit is open
    | FinishEditFirst      // an edit was clicked while another one is open

  /** JavaScript's `unit || 'pcs'`: a missing or empty unit is replaced. */
  function UnitOrDefault(unit: Option<string>): string
  {
    match unit
    case Some(u) => if u == "" then DefaultUnit else u
    case None => DefaultUnit
  }

  /** The same record apart from the unit. */
  predicate SameButUnit(item: StockItem, rec: StoredItem)
  {
    && item.id == rec.id
    && item.name == rec.name
    && item.category == rec.category
    && item.quantity == rec.quantity
    && item.dateAdded == rec.dateAdded
  }

  /** The load-time migration over every stored record. */
  function Migrate(stored: seq<StoredItem>): (items: seq<StockItem>)
    ensures |items| == |stored|
    ensures forall k :: 0 <= k < |items| ==> items[k].unit != ""
    ensures forall k :: 0 <= k < |items| ==> SameButUnit(items[k], stored[k])
    ensures forall k :: 0 <= k < |items| && stored[k].unit.Some? && stored[k].unit.value != "" ==>
              items[k].unit == stored[k].unit.value
    ensures forall k :: 0 <= k < |items| && (stored[k].unit.None? || stored[k].unit == Some("")) ==>
              items[k].unit == DefaultUnit
  {
    seq(|stored|, k requires 0 <= k < |stored| =>
      var rec := stored[k];
      StockItem(rec.id, rec.name, rec.category, rec.quantity, UnitOrDefault(rec.unit), rec.dateAdded))
  }

  /** The stored form of the list: every field written, the unit included. */
  function Persist(items: seq<StockItem>): (stored: seq<StoredItem>)
  {
    seq(|items|, k requires 0 <= k < |items| =>
      var it := items[k];
      StoredItem(it.id, it.name, it.category, it.quantity, Some(it.unit), it.dateAdded))
  }

  ghost predicate AllUnitsSet(items: seq<StockItem>)
  {
    forall k :: 0 <= k < |items| ==> items[k].unit != ""
  }

  /** The ids present in the list. */
  function Ids(items: seq<StockItem>): set<Id>
  {
    set k | 0 <= k < |items| :: items[k].id
  }

  ghost predicate UniqueIds(items: seq<StockItem>)
  {
    forall i, j :: 0 <= i < j < |items| ==> items[i].id != items[j].id
  }

  /** A well-formed list: unique ids, a set unit and a non-negative
      quantity on every record. */
  ghost predicate WellFormed(items: seq<StockItem>)
  {
    && UniqueIds(items)
    && AllUnitsSet(items)
    && forall k :: 0 <= k < |items| ==> items[k].quantity >= 0
  }

  /** Saving a list whose units are all set and loading it back gives the
      same list, field for field. */
  lemma ReloadRoundTrip(items: seq<StockItem>)
    requires AllUnitsSet(items)
    ensures Migrate(Persist(items)) == items
  {
  }

  /** The migration is idempotent: migrating, saving and migrating again
      gives the same list as migrating once. */
  lemma MigrateIdempotent(stored: seq<StoredItem>)
    ensures Migrate(Persist(Migrate(stored))) == Migrate(stored)
  {
  }
}

=== FILE: store.dfy ===
/** The inventory store: the in-memory list and its mirror in the
    `stockItems` storage slot, with the add, delete and quantity-write
    operations that change them. */
module Store {
  import opened Wrappers
  import opened Text
  import opened Stock
  import opened Subsequences

  /** `items` is the list the page works on; `stored` is what the storage
      slot holds. */
  datatype Store = Store(items: seq<StockItem>, stored: seq<StoredItem>)

  /** Reading the slot on start-up: the stored records, migrated. The slot
      itself is not rewritten until the next mutation. */
  function Load(stored: seq<StoredItem>): Store
  {
    Store(Migrate(stored), stored)
  }

  /** Reloading the slot would give back the list in memory. */
  ghost predicate Synced(st: Store)
  {
    Migrate(st.stored) == st.items
  }

  /** A mutation followed by `saveItemsToLocalStorage`: the whole list is written. */
  function Commit(items: seq<StockItem>): Store
  {
    Store(items, Persist(items))
  }

  /** `findIndex(item => item.id === id)`: the first position holding `id`, or -1. */
  function FindIndex(items: seq<StockItem>, id: Id): (r: int)
    ensures -1 <= r < |items|
    ensures r == -1 <==> id !in Ids(items)
    ensures r >= 0 ==> items[r].id == id && forall k :: 0 <= k < r ==> items[k].id != id
  {
    if |items| == 0 then -1
    else if items[0].id == id then 0
    else
      var t := FindIndex(items[1..], id);
      assert forall k :: 0 < k < |items| ==> items[k] == items[1..][k - 1];
      assert Ids(items) == {items[0].id} + Ids(items[1..]);
      if t == -1 then -1 else t + 1
  }

  /** The checks of the add form: a non-blank name and category, and a
      quantity that parsed to at least 1. The unit is not checked. */
  predicate AcceptsNewItem(name: string, category: string, quantity: Option<int>)
  {
    name != "" && category != "" && quantity.Some? && quantity.value >= 1
  }

  /** Submitting the add form. The name and category are trimmed; the unit
      is taken as selected; `newId` and `now` stand for `crypto.randomUUID()`
      and the current time. */
  function Add(st: Store, nameInput: string, categoryInput: string, quantity: Option<int>,
               unit: string, newId: Id, now: string): (r: Result<Store, Alert>)
    ensures r.Failure? <==>
              AllWhiteSpace(nameInput) || AllWhiteSpace(categoryInput)
              || quantity.None? || quantity.value < 1
    ensures r.Failure? ==> r.error == InvalidItem
    ensures r.Success? ==>
              && |r.value.items| == |st.items| + 1
              && r.value.items[..|st.items|] == st.items
              && r.value.items[|st.items|]
                 == StockItem(newId, Trim(nameInput), Trim(categoryInput), quantity.value, unit, now)
              && r.value.stored == Persist(r.value.items)
    ensures r.Success? && UniqueIds(st.items) && newId !in Ids(st.items) ==> UniqueIds(r.value.items)
  {
    var name := Trim(nameInput);
    var category := Trim(categoryInput);
    TrimEmptyIffBlank(nameInput);
    TrimEmptyIffBlank(categoryInput);
    if !AcceptsNewItem(name, category, quantity) then Failure(InvalidItem)
    else
      var items := st.items + [StockItem(newId, name, category, quantity.value, unit, now)];
      assert forall k :: 0 <= k < |st.items| ==> st.items[k].id in Ids(st.items);
      Success(Commit(items))
  }

  /** The list with position `i` spliced out: the records before it stay
      where they are and the ones after it move down by one. */
  function RemoveAt(items: seq<StockItem>, i: nat): (r: seq<StockItem>)
    requires i < |items|
    ensures |r| == |items| - 1
    ensures forall k :: 0 <= k < |r| ==> r[k] == items[if k < i then k else k + 1]
    ensures IsSubsequence(r, items)
  {
    DropOneIsSubsequence(items, i);
    items[..i] + items[i + 1..]
  }

  /** With unique ids, splicing out position `i` removes exactly the records
      carrying its id, and ids stay unique. */
  lemma RemoveAtUnique(items: seq<StockItem>, i: nat)
    requires i < |items|
    ensures UniqueIds(items) ==>
              && UniqueIds(RemoveAt(items, i))
              && (forall x :: x in RemoveAt(items, i) <==> x in items && x.id != items[i].id)
              && Ids(RemoveAt(items, i)) == Ids(items) - {items[i].id}
  {
    if UniqueIds(items) {
      RemoveAtIds(items, i, RemoveAt(items, i));
    }
  }

  /** The id set after the splice: the spliced record's id is gone, the rest stay. */
  lemma RemoveAtIds(items: seq<StockItem>, i: nat, r: seq<StockItem>)
    requires i < |items| && r == RemoveAt(items, i) && UniqueIds(items)
    ensures Ids(r) == Ids(items) - {items[i].id}
  {
    forall x | x in Ids(r)
      ensures x in Ids(items) - {items[i].id}
    {
      var k :| 0 <= k < |r| && r[k].id == x;
      var k' := if k < i then k else k + 1;
      assert items[k'].id == x && k' != i;
    }
    forall x | x in Ids(items) - {items[i].id}
      ensures x in Ids(r)
    {
      var k :| 0 <= k < |items| && items[k].id == x;
      var k' := if k < i then k else k - 1;
      assert r[k'].id == x;
    }
  }

  /** Clicking delete on the row of `id` (once the edit gate lets it through). */
  function Delete(st: Store, id: Id): (r: Store)
    ensures id !in Ids(st.items) ==> r == st
    ensures id in Ids(st.items) ==>
              && |r.items| == |st.items| - 1
              && IsSubsequence(r.items, st.items)
              && r.stored == Persist(r.items)
    ensures UniqueIds(st.items) ==>
              && UniqueIds(r.items)
              && (forall x :: x in r.items <==> x in st.items && x.id != id)
              && Ids(r.items) == Ids(st.items) - {id}
  {
    var i := FindIndex(st.items, id);
    if i < 0 then st
    else
      var items := RemoveAt(st.items, i);
      RemoveAtUnique(st.items, i);
      Commit(items)
  }

  /** Saving an edited quantity: the value must have parsed to a
      non-negative integer; the first record holding `id` gets it, every
      other position is untouched, and a
      missing id changes nothing (and writes nothing). */
  function SetQuantity(st: Store, id: Id, entered: Option<int>): (r: Result<Store, Alert>)
    ensures r.Failure? <==> entered.None? || entered.value < 0
    ensures r.Failure? ==> r.error == InvalidQuantity
    ensures r.Success? && id !in Ids(st.items) ==> r.value == st
    ensures r.Success? && id in Ids(st.items) ==>
              && |r.value.items| == |st.items|
              && (forall k :: 0 <= k < |st.items| ==>
                    r.value.items[k] == st.items[k].(quantity := r.value.items[k].quantity))
              && (forall k :: 0 <= k < |st.items| && st.items[k].id != id ==>
                    r.value.items[k] == st.items[k])
              && (exists k :: 0 <= k < |st.items| && st.items[k].id == id
                               && r.value.items[k].quantity == entered.value)
              && r.value.stored == Persist(r.value.items)
    ensures r.Success? && id in Ids(st.items) ==>
              && r.value.items[FindIndex(st.items, id)].quantity == entered.value
              && (forall k :: 0 <= k < |st.items| && k != FindIndex(st.items, id) ==>
                    r.value.items[k] == st.items[k])
    ensures r.Success? && UniqueIds(st.items) ==>
              forall k :: 0 <= k < |st.items| && st.items[k].id == id ==>
                r.value.items[k].quantity == entered.value
  {
    if entered.None? || entered.value < 0 then Failure(InvalidQuantity)
    else
      var i := FindIndex(st.items, id);
      if i < 0 then Success(st)
      else Success(Commit(st.items[i := st.items[i].(quantity := entered.value)]))
  }

  /** Writing a list whose units are all set keeps the slot in step with it. */
  lemma CommitIsSynced(items: seq<StockItem>)
    requires AllUnitsSet(items)
    ensures Synced(Commit(items))
  {
  }

  /** An accepted add keeps the list well formed when the new id is fresh and
      the selected unit is not empty, and the slot stays in step. */
  lemma AddKeepsWellFormed(st: Store, nameInput: string, categoryInput: string,
                           quantity: Option<int>, unit: string, newId: Id, now: string)
    requires WellFormed(st.items)
    requires newId !in Ids(st.items) && unit != ""
    ensures var r := Add(st, nameInput, categoryInput, quantity, unit, newId, now);
            r.Success? ==> WellFormed(r.value.items) && Synced(r.value)
  {
  }

  /** Deleting keeps the list well formed and the slot in step. */
  lemma DeleteKeepsWellFormed(st: Store, id: Id)
    requires WellFormed(st.items) && Synced(st)
    ensures WellFormed(Delete(st, id).items) && Synced(Delete(st, id))
  {
  }

  /** An accepted quantity write keeps the list well formed and the slot in step. */
  lemma SetQuantityKeepsWellFormed(st: Store, id: Id, entered: Option<int>)
    requires WellFormed(st.items) && Synced(st)
    ensures var r := SetQuantity(st, id, entered);
            r.Success? ==> WellFormed(r.value.items) && Synced(r.value)
  {
  }
}

=== FILE: subsequences.dfy ===
/** Order-preserving selection from a sequence: what `Array.prototype.filter`
    and a one-element `splice` both produce. */
module Subsequences {

  /** `idx` picks, in strictly increasing positions of `ys`, the elements of `xs`. */
  ghost predicate Embeds<T>(idx: seq<nat>, xs: seq<T>, ys: seq<T>)
  {
    && |idx| == |xs|
    && (forall k :: 0 <= k < |idx| ==> idx[k] < |ys| && xs[k] == ys[idx[k]])
    && (forall k, l :: 0 <= k < l < |idx| ==> idx[k] < idx[l])
  }

  /** `xs` is `ys` with some elements dropped and the rest kept in order. */
  ghost predicate IsSubsequence<T>(xs: seq<T>, ys: seq<T>)
  {
    exists idx :: Embeds(idx, xs, ys)
  }

  /** The positions `lo, lo + 1, ..., hi - 1`. */
  function Range(lo: nat, hi: nat): (r: seq<nat>)
    requires lo <= hi
    ensures |r| == hi - lo
    ensures forall k :: 0 <= k < |r| ==> r[k] == lo + k
  {
    seq(hi - lo, k requires 0 <= k < hi - lo => lo + k)
  }

  /** Removing the element at position `i` leaves a subsequence. */
  lemma DropOneIsSubsequence<T>(ys: seq<T>, i: nat)
    requires i < |ys|
    ensures IsSubsequence(ys[..i] + ys[i + 1..], ys)
  {
    var xs := ys[..i] + ys[i + 1..];
    var idx := Range(0, i) + Range(i + 1, |ys|);
    assert forall k :: 0 <= k < |idx| ==> idx[k] == (if k < i then k else k + 1);
    assert Embeds(idx, xs, ys);
  }

  /** Keeping the head and selecting from the tail selects from the whole. */
  lemma ConsIsSubsequence<T>(x: T, xs: seq<T>, ys: seq<T>)
    requires |ys| > 0 && x == ys[0] && IsSubsequence(xs, ys[1..])
    ensures IsSubsequence([x] + xs, ys)
  {
    var idx :| Embeds(idx, xs, ys[1..]);
    var idx' := [0] + Shift(idx);
    assert Embeds(idx', [x] + xs, ys);
  }

  /** Dropping the head and selecting from the tail selects from the whole. */
  lemma SkipIsSubsequence<T>(xs: seq<T>, ys: seq<T>)
    requires |ys| > 0 && IsSubsequence(xs, ys[1..])
    ensures IsSubsequence(xs, ys)
  {
    var idx :| Embeds(idx, xs, ys[1..]);
    assert Embeds(Shift(idx), xs, ys);
  }

  /** Every position moved one to the right. */
  function Shift(idx: seq<nat>): (r: seq<nat>)
    ensures |r| == |idx|
    ensures forall k :: 0 <= k < |r| ==> r[k] == idx[k] + 1
  {
    seq(|idx|, k requires 0 <= k < |idx| => idx[k] + 1)
  }
}

=== FILE: text.dfy ===
/** The three JavaScript string built-ins the inventory relies on:
    `String.prototype.trim`, `toLowerCase` and `includes`. */
module Text {

  /** The code points ECMAScript counts as WhiteSpace or LineTerminator,
      which are exactly the ones `trim` strips. */
  predicate IsWhiteSpace(c: char)
  {
    var n := c as int;
    n == 0x09 || n == 0x0A || n == 0x0B || n == 0x0C || n == 0x0D || n == 0x20
    || n == 0xA0 || n == 0x1680 || (0x2000 <= n <= 0x200A) || n == 0x2028
    || n == 0x2029 || n == 0x202F || n == 0x205F || n == 0x3000 || n == 0xFEFF
  }

  /** A blank input: nothing but white space (the empty string included). */
  ghost predicate AllWhiteSpace(s: string)
  {
    forall k :: 0 <= k < |s| ==> IsWhiteSpace(s[k])
  }

  /** The first index at or after `i` that does not hold white space. */
  function SkipWhiteSpace(s: string, i: nat): (b: nat)
    requires i <= |s|
    ensures i <= b <= |s|
    ensures forall k :: i <= k < b ==> IsWhiteSpace(s[k])
    ensures b == |s| || !IsWhiteSpace(s[b])
    decreases |s| - i
  {
    if i < |s| && IsWhiteSpace(s[i]) then SkipWhiteSpace(s, i + 1) else i
  }

  /** Scanning back from `j`, no further than `lo`: the end of the last
      character that is not white space. */
  function SkipWhiteSpaceBack(s: string, lo: nat, j: nat): (e: nat)
    requires lo <= j <= |s|
    ensures lo <= e <= j
    ensures forall k :: e <= k < j ==> IsWhiteSpace(s[k])
    ensures e == lo || !IsWhiteSpace(s[e - 1])
    decreases j
  {
    if lo < j && IsWhiteSpace(s[j - 1]) then SkipWhiteSpaceBack(s, lo, j - 1) else j
  }

  /** `s.trim()`: the slice of `s` left once white space is removed from both
      ends; it neither starts nor ends with white space. */
  function Trim(s: string): (r: string)
    ensures exists i, j :: 0 <= i <= j <= |s| && r == s[i..j]
                           && (forall k :: 0 <= k < i ==> IsWhiteSpace(s[k]))
                           && (forall k :: j <= k < |s| ==> IsWhiteSpace(s[k]))
    ensures r == [] || (!IsWhiteSpace(r[0]) && !IsWhiteSpace(r[|r| - 1]))
  {
    var i := SkipWhiteSpace(s, 0);
    var j := SkipWhiteSpaceBack(s, i, |s|);
    s[i..j]
  }

  /** A trimmed input is empty exactly when the raw input was blank. */
  lemma TrimEmptyIffBlank(s: string)
    ensures Trim(s) == [] <==> AllWhiteSpace(s)
  {
  }

  predicate IsAsciiUpper(c: char)
  {
    'A' <= c <= 'Z'
  }

  /** `toLowerCase` on one character, restricted to the ASCII letters. */
  function LowerChar(c: char): (d: char)
    ensures !IsAsciiUpper(d)
    ensures !IsAsciiUpper(c) ==> d == c
    ensures IsAsciiUpper(c) ==> d as int - c as int == 'a' as int - 'A' as int
  {
    if IsAsciiUpper(c) then (c as int + ('a' as int - 'A' as int)) as char else c
  }

  /** `s.toLowerCase()`, restricted to the ASCII letters: same length, no
      upper-case letter left, every other character kept in place. */
  function Lower(s: string): (r: string)
    ensures |r| == |s|
    ensures forall k :: 0 <= k < |r| ==> !IsAsciiUpper(r[k])
    ensures forall k :: 0 <= k < |s| && !IsAsciiUpper(s[k]) ==> r[k] == s[k]
    ensures forall k :: 0 <= k < |s| && IsAsciiUpper(s[k]) ==>
              r[k] as int == s[k] as int + ('a' as int - 'A' as int)
  {
    seq(|s|, k requires 0 <= k < |s| => LowerChar(s[k]))
  }

  /** Lower-casing a lower-cased string changes nothing. */
  lemma LowerIdempotent(s: string)
    ensures Lower(Lower(s)) == Lower(s)
  {
  }

  /** `needle` occurs in `hay` starting at offset `i`. */
  ghost predicate OccursAt(hay: string, needle: string, i: int)
  {
    0 <= i && i + |needle| <= |hay| && hay[i..i + |needle|] == needle
  }

  ghost predicate Occurs(hay: string, needle: string)
  {
    exists i :: OccursAt(hay, needle, i)
  }

  /** `hay.includes(needle)`, scanning offsets left to right. */
  function Contains(hay: string, needle: string): bool
    decreases |hay|
  {
    if |needle| > |hay| then false
    else if hay[..|needle|] == needle then true
    else Contains(hay[1..], needle)
  }

  /** The scan finds `needle` exactly when it occurs at some offset. */
  lemma {:induction false} ContainsIffOccurs(hay: string, needle: string)
    ensures Contains(hay, needle) <==> Occurs(hay, needle)
    decreases |hay|
  {
    if |needle| > |hay| {
      assert forall i :: !OccursAt(hay, needle, i);
    } else if hay[..|needle|] == needle {
      assert OccursAt(hay, needle, 0);
    } else {
      ContainsIffOccurs(hay[1..], needle);
      if Occurs(hay, needle) {
        var i :| OccursAt(hay, needle, i);
        assert i != 0;
        forall k | 0 <= k < |needle|
          ensures hay[1..][i - 1..i - 1 + |needle|][k] == needle[k]
        {
          assert hay[i..i + |needle|][k] == hay[i + k];
        }
        assert hay[1..][i - 1..i - 1 + |needle|] == needle;
        assert OccursAt(hay[1..], needle, i - 1);
      }
      if Occurs(hay[1..], needle) {
        var i :| OccursAt(hay[1..], needle, i);
        forall k | 0 <= k < |needle|
          ensures hay[i + 1..i + 1 + |needle|][k] == needle[k]
        {
          assert hay[1..][i..i + |needle|][k] == hay[i + 1 + k];
        }
        assert hay[i + 1..i + 1 + |needle|] == needle;
        assert OccursAt(hay, needle, i + 1);
      }
    }
  }

  /** The empty needle occurs in every string, as `includes('')` is always true. */
  lemma ContainsEmpty(hay: string)
    ensures Contains(hay, [])
  {
  }
}

=== FILE: wrappers.dfy ===
/** The Option and Result datatypes shared by the inventory model. */
module Wrappers {

  /** A value that may be absent: a field missing from a stored record, or an
      input that did not parse as an integer (`parseInt` returning NaN). */
  datatype Option<+T> = None | Some(value: T)

  /** The outcome of an operation that either commits or is refused with an error. */
  datatype Result<+R, +E> = Success(value: R) | Failure(error: E)
}
